=== FILE: README.md ===
# Lesson-plan generator: a Dafny model

The application is a single-page tool for Ecuadorian teachers. The teacher
fills in a form: institution, teacher, date, academic year, subject, grade,
unit title and topic, plus optionally an educational need and an
adaptation tier. The application then sends a prompt to a generative model
and receives a microcurricular unit plan (PUD) as JSON. It overlays the
teacher's own data on the reply and renders the plan as tables that can be
downloaded as PDF or Word. The model covers the logic the application
itself decides:

- `Types` (types.dfy): the records of `types.ts` as immutable datatypes.
  `curricularAdaptation` is the only optional field (an `Option`). The
  seven administrative fields have the same `string` type in `UserInputs`
  and `LessonPlanData`, so the overlay in `Reconcile` type-checks field by
  field.
- `Text` (text.dfy): the JavaScript string operations the code relies on.
  - Template literals (`Concat`).
  - `Array.prototype.join` (`Join`).
  - The decimal rendering of an integral `number` (`NatToString`,
    `IntToString`).
  - `String.prototype.replace` with a one-character string pattern, which
    replaces only the first occurrence (`ReplaceFirst`).
- `GeminiService` (gemini_service.dfy):
  - The adaptation sub-prompt and the main prompt.
  - The reconciliation of the parsed reply with the inputs.
  - The fixed-format error every failure is wrapped in.

  The remote model is a parameter `service` that maps the prompt to a
  parsed plan or a thrown value. The prompt functions take their template
  text as a `PromptText` value; `SourceText` holds the source's verbatim
  template pieces.
- `App` (app.dfy): the session triple (plan, loading flag, error), the two
  halves of `handleGeneratePlan`, and the display conditions.
- `PlannerForm` (planner_form.dfy):
  - The initial form.
  - `handleChange` as a single-field update.
  - The option sets of the two selects, which are only shown while
    adaptation is ticked.
  - Submission: blocked while loading, and blocked while a `required`
    input is empty.
- `LessonPlan` (lesson_plan.dfy):
  - Download names.
  - The ids of the rendered tables, which the PDF exporter looks up.
  - The strings of the informative table's cells.
- `LoadingSpinner` (loading_spinner.dfy): the rotating status-message
  index.

## Model

| member | source | states |
|---|---|---|
| GeminiService.AdaptationFromCarriesChoice | services/geminiService.ts:78-90 | for any template text, a requested adaptation sub-prompt contains its lead-in, the chosen need, the chosen tier and the tier guidelines verbatim |
| GeminiService.AdaptationFromEmptyIff | services/geminiService.ts:73-91 | with a non-empty lead-in, the adaptation sub-prompt is empty exactly when adaptation is not requested |
| GeminiService.AdaptationPromptLaw | services/geminiService.ts:73-91 | the source's adaptation prompt is "" iff `needsAdaptation` is false; otherwise it contains `educationalNeed` and `adaptationGrade` verbatim |
| GeminiService.PromptFromCarriesInputs | services/geminiService.ts:97-119 | the main prompt contains subject, grade, unit title, topic and the adaptation sub-prompt by direct substitution; when adaptation is requested it also contains the need and the tier |
| GeminiService.PromptFromIgnoresOtherFields | services/geminiService.ts:97-119 | institution, teacher, date and academic year never influence the prompt; need and tier influence it only when adaptation is requested |
| GeminiService.ReconcileAdaptation | services/geminiService.ts:135-142 | the kept adaptation is absent unless requested; when requested it is present iff the model sent one, carries the user's need and tier, and keeps the model's four adaptation texts |
| GeminiService.Reconcile | services/geminiService.ts:135-155 | the seven administrative fields equal the inputs and the unit number is 1; objective, criterion, insertions and weekly plans pass through untouched; the adaptation obeys the presence law |
| GeminiService.ReconcileCharacterized | services/geminiService.ts:135-155 | a plan equals the reconciliation of a reply iff it satisfies the header, content and adaptation laws, so those laws say everything the overlay does |
| GeminiService.ReconcileIdempotent | services/geminiService.ts:136-153 | reconciling twice with the same inputs equals reconciling once |
| GeminiService.ModelHeaderIsAdvisory | services/geminiService.ts:135-155 | two replies with the same generated content reconcile to the same plan, whatever the model put in the header fields, the unit number and the adaptation's need and tier |
| GeminiService.InputOnlyFieldsStayOut | services/geminiService.ts:136-153 | the topic never reaches the plan, and need and tier reach it only when adaptation is requested |
| GeminiService.CauseOf | services/geminiService.ts:158-161 | the cause of an `Error` is its message; any other thrown value gives the fixed unknown-error text |
| GeminiService.FailureMessage | services/geminiService.ts:162 | the failure message is the fixed prefix, then the cause, then the fixed suffix |
| GeminiService.CauseOfFailureMessage | services/geminiService.ts:162 | the cause is read back exactly from the failure message |
| GeminiService.FailureMessageOfCause | services/geminiService.ts:162 | any text read as a failure message is the failure message of the cause read from it |
| GeminiService.GenerateFrom | services/geminiService.ts:94-163 | a parsed reply yields success with the reconciled plan (header, content and adaptation laws); a throw yields no plan but an `Error` whose message wraps the thrown value's cause |
| GeminiService.GenerateFromFailsWithMessage | services/geminiService.ts:156-163 | every failure is an `Error` whose message is a non-empty, well-formed failure message |
| Text.ConcatContains | services/geminiService.ts:97-119 | each piece of a template literal occurs verbatim in its value |
| Text.ReplaceFirst | components/LessonPlan.tsx:27 | `replace(' ', '_')` keeps the length, leaves a string with no space unchanged, and changes only the position of the first space |
| Text.ReplaceFirstTradesOne | components/LessonPlan.tsx:27 | replace trades exactly one occurrence of the pattern for the replacement; no other character is gained or lost |
| Text.ReplaceFirstCount | components/LessonPlan.tsx:27 | with distinct characters, the result holds exactly one space fewer |
| Text.JoinContains | components/LessonPlan.tsx:75 | every joined element occurs verbatim in `join`'s result |
| Text.JoinLength | components/LessonPlan.tsx:75 | the length of `join`'s result is the total element length plus one separator per adjacent pair |
| Text.ParseNatToString | components/LessonPlan.tsx:83 | the decimal rendering of an index reads back as that index |
| Text.NatToStringInjective | components/LessonPlan.tsx:83 | distinct indices render to distinct strings |
| Text.IntToString | components/LessonPlan.tsx:61 | `String(n)` is non-empty, starts with '-' exactly for negative numbers, and is decimal digits after that sign with no leading zero; 0 renders as exactly "0" |
| Text.IntToStringReadsBack | components/LessonPlan.tsx:61 | the digits of `String(n)` read back as the magnitude of n, so the rendering loses nothing |
| Text.JoinSplit | components/LessonPlan.tsx:75 | cutting the joined list at any inner position cuts `join`'s result into the two halves' joins with exactly one separator between them |
| App.ErrorText | App.tsx:23-28 | the stored error is the thrown `Error`'s message, or 'An unexpected error occurred.' for any other value |
| App.Generate | App.tsx:16-32 | after a generation, loading is false and plan and error are not both set; on success the plan is the returned one and the error is null; on failure the plan is null and the error is the thrown value's text |
| App.LoadingShowsOnlySpinner | App.tsx:17-19 | starting a generation raises loading and clears plan and error from any prior state, so only the spinner is displayed (App.tsx:41-43) and the state is consistent |
| App.SettleWithoutBeginBreaksConsistency | App.tsx:17-22 | clearing both slots at the start is needed: for every old error text, storing a plan beside it breaks the invariant |
| App.RunConsistent | App.tsx:12-32 | from any consistent idle state, including the initial one, plan and error are never both set after any number of generations, and loading is down between them |
| App.RunKeepsLastOutcome | App.tsx:16-32 | after any non-empty series of generations the session is determined by the last outcome alone |
| App.GenerationShowsOneResult | App.tsx:16-43 | after a generation exactly one of plan and error banner is displayed, never the spinner, and the banner never carries the non-`Error` fallback text |
| App.GenerationOutcome | App.tsx:16-32 | a parsed reply leaves the reconciled plan and no error; a thrown reply leaves no plan and an error from which the cause is read back |
| PlannerForm.HandleChange | components/PlannerForm.tsx:25-33 | a checkbox event sets `needsAdaptation` to `checked`; any other event sets the named field to its value; every other field is unchanged |
| PlannerForm.SameValuesSameForm | components/PlannerForm.tsx:11-23 | the flag and the ten named fields determine the whole form state |
| PlannerForm.ChangeThenRevert | components/PlannerForm.tsx:30-31 | typing a value and then the previous value back restores the form exactly |
| PlannerForm.UntickKeepsAdaptationChoice | components/PlannerForm.tsx:27-29 | unticking adaptation keeps need and tier, which are only hidden, and ticking again restores the form |
| PlannerForm.InitialFormState | components/PlannerForm.tsx:11-23 | the initial form is unticked, with need 'Dificultades de Aprendizaje (DEA)' and tier 'Grado 2', both among the select options; it is submittable iff the date string is non-empty |
| PlannerForm.HandleChangeKeepsSelectsInRange | components/PlannerForm.tsx:174-208 | an event from a control on screen keeps need and tier among the six and three offered options |
| PlannerForm.ReplayKeepsSelectsInRange | components/PlannerForm.tsx:174-208 | through any sequence of on-screen events, need and tier stay among the offered options |
| PlannerForm.Submit | components/PlannerForm.tsx:35-38 | a submission happens iff not loading and every required input is non-empty, and it passes the form state unchanged |
| LessonPlan.ExportBaseName | components/LessonPlan.tsx:27 | the base name is "Planificacion-" followed by the subject with only its first space turned into '_'; a subject with no space appears unchanged |
| LessonPlan.PdfFileName | services/exportService.ts:93 | the PDF is saved as the base name built at components/LessonPlan.tsx:27 plus the ".pdf" the exporter appends |
| LessonPlan.WordFileName | components/LessonPlan.tsx:30-32 | the Word download name is the base name plus ".docx", which the exporter uses verbatim (services/exportService.ts:138) |
| LessonPlan.LaterSpacesSurvive | components/LessonPlan.tsx:27-31 | the subject part of the name has exactly one space fewer, so a subject with two spaces keeps one in both names |
| LessonPlan.ReplaceOnlySpace | components/LessonPlan.tsx:27 | a subject whose only space follows `a` becomes `a` + '_' + the rest |
| LessonPlan.SpaceAndUnderscoreShareName | components/LessonPlan.tsx:27-31 | two different subjects, one with a space and one with '_' in its place, download under the same name |
| LessonPlan.WeeklyIdRoundTrip | components/LessonPlan.tsx:83 | the index is read back from "weekly-plan-table-" + index, and no other table id reads as a weekly one |
| LessonPlan.WeeklyTableIds | components/LessonPlan.tsx:80-83 | one id per week, position i holding the id of week index i |
| LessonPlan.WeeklyIdsDistinct | components/LessonPlan.tsx:83 | the ids of two different week indices differ |
| LessonPlan.TableIds | components/LessonPlan.tsx:39-144 | the informative table first, then exactly one weekly table per element in list order, then the two adaptation tables only when the plan has an adaptation |
| LessonPlan.AdaptationTablesIff | components/LessonPlan.tsx:128-144 | "adaptation-info-table" and "adaptation-plan-table" are among the ids iff the plan holds an adaptation |
| LessonPlan.WeeklyRegionDistinct | components/LessonPlan.tsx:39-83 | the informative table and the weekly tables all have different ids |
| LessonPlan.AdaptationRegionDistinct | components/LessonPlan.tsx:39-144 | each adaptation table's id differs from every id before it |
| LessonPlan.TableIdsDistinctAt | components/LessonPlan.tsx:39-144 | two different positions of the table list hold different ids |
| LessonPlan.TableIdsDistinct | components/LessonPlan.tsx:39-144 | no two rendered tables share an id |
| LessonPlan.UnitCell | components/LessonPlan.tsx:61 | the unit cell ends with ". " + unit title, and starts with '-' only for a negative unit number |
| LessonPlan.UnitCellReadsBack | components/LessonPlan.tsx:61 | the text before ". " in the unit cell is digits with no leading zero that read back as the unit number (after a '-' for a negative one); unit 0 shows exactly "0" |
| LessonPlan.InsertionsCellShowsEach | components/LessonPlan.tsx:75 | the insertions cell contains every insertion verbatim, has the length of their ", "-join, and is empty for no insertions |
| LessonPlan.InsertionsCellOrder | components/LessonPlan.tsx:75 | the insertions appear in list order with one ", " between neighbours, and a single insertion is shown alone |
| LessonPlan.InformativeLayout | components/LessonPlan.tsx:41-76 | the informative table has eleven cells whose headings do not depend on the plan; area and subject both show the subject; objective and criterion show the plan's own texts |
| LessonPlan.ReconciledHeaderShowsInputs | components/LessonPlan.tsx:41-76 | after reconciliation the informative table shows the typed institution, date, teacher, year, the subject twice (area and subject), "1. " + unit title and the grade; only objective, criterion and insertions come from the model |
| LessonPlan.ReconciledAdaptationTables | components/LessonPlan.tsx:128-144 | after reconciliation each of the two adaptation tables appears iff adaptation was requested and the model sent an adaptation |
| LoadingSpinner.Tick | components/LoadingSpinner.tsx:19 | one tick gives an in-range index congruent to the next one modulo the number of messages |
| LoadingSpinner.TickOfRemainder | components/LoadingSpinner.tsx:19 | ticking the remainder equals ticking the number |
| LoadingSpinner.TicksFromAdvances | components/LoadingSpinner.tsx:15-19 | k ticks from an in-range index land on (index + k) mod 7 |
| LoadingSpinner.SpinnerAfter | components/LoadingSpinner.tsx:15-28 | after k ticks from 0 the message shown is message k mod 7, the access is in bounds, the first seven ticks show each message in order, and seven more ticks return to the same one |

## Left out

- The remote model call (client construction, API key, model id `gemini-2.5-flash`, temperature) is the `service` parameter, because it is a network call.
- The response schema (services/geminiService.ts:6-71) and `JSON.parse` with its type cast are folded into `service`. A reply that does not parse is a `Threw`. The code only casts, so no required-field or non-empty-weeks check is claimed. `service` is assumed to return a complete, schema-shaped `LessonPlanData`. A reply that parses to an object with missing fields (for example `{}` with adaptation unticked) is returned by the code (services/geminiService.ts:133-155) and fails only when rendered, at `curricularInsertions.join` (components/LessonPlan.tsx:75). Such incomplete objects are not modelled.
- A reply that parses to something other than an object (for example `null`), whose property assignment throws a `TypeError` inside the `try`, is also a `Threw` of `service`, not a separate path.
- The tier-specific directives (unchanged skill for Grado 1 and 2, reduced skill for Grado 3) are prompt text only. Nothing checks them locally, so nothing is proved about them.
- `console.error` logging in the failure path is output only.
- services/exportService.ts apart from the two file-name facts: DOM queries, PDF table layout, Word conversion and the download plumbing are library and browser I/O.
- React rendering and markup, components/Hero.tsx and components/ErrorMessage.tsx: these are static markup. What is rendered is stated through the display predicates and the table-id and cell functions.
- The `setInterval` timer, its 2500 ms period and its clean-up: timing is not modelled. A tick is a call of `Tick`.
- The default date `new Date().toLocaleDateString('es-EC')` is the `today` parameter of `InitialForm`, because it depends on the clock and the locale.
- A Dafny `string` is a sequence of Unicode scalar values, while a JavaScript string is a sequence of UTF-16 code units. The length facts (`ExportBaseName`, `FailureMessage`, `JoinLength`) therefore count characters, not JavaScript `.length`. Nothing in the program depends on the difference: replacing a space and interpolating text behave the same either way.
- `unitNumber` and `week` are JavaScript numbers; they are modelled as `int`. Non-integral and non-finite values are not modelled.
- The React `key={weeklyPlan.week}` of the weekly sections is not modelled. It does not affect the rendered ids.
- App.HandleGeneratePlan has no contract of its own. It is `Generate(s, GenerateFrom(SourceText, u, service))`, and its properties are stated for every template text `t` in App.GenerationShowsOneResult and App.GenerationOutcome.
- GeminiService.BuildPrompt has no contract of its own for the same reason. Its facts are proved for every template text (PromptFromCarriesInputs), because solving over the source's long literal text directly is too costly.
- `handleChange` in the source is keyed by the DOM `name`; events are modelled with the closed `TextField` type. The one checkbox is `needsAdaptation`, so an event for a field name that does not exist is not modelled.
- Browser `required` validation is modelled as "every required input is non-empty". Whitespace-only values count as filled, as in the browser.
- GeminiService.ReconcileAdaptation: when adaptation is requested and the reply carries none, the code keeps it absent (services/geminiService.ts:138) and does not create one. Rule 5 of the prompt (services/geminiService.ts:108) only asks for null when adaptation is not requested, so a requested adaptation may still be missing; AdaptationLaw therefore states "present iff requested and sent", not "present iff requested".
- Text.IntToString: JavaScript renders a number of magnitude 10^21 or more in exponent form ("1e+21"), which the model never produces. After reconciliation the unit number is 1, so the rendered plan never reaches that case.
- GeminiService.GeneratePlan has no contract of its own. It is `GenerateFrom(SourceText, u, service)`, whose contract (and GenerateFromFailsWithMessage) states its behaviour for every template text.
- LessonPlan.InformativeCells has no contract of its own; LessonPlan.InformativeLayout and LessonPlan.ReconciledHeaderShowsInputs state what it shows.

=== FILE: app.dfy ===
/** App.tsx: the session owns one slot for the current plan, a loading flag
    and one slot for the error message. `handleGeneratePlan` clears both
    slots and raises the flag, awaits the generation, fills exactly one
    slot, and lowers the flag. The await is modelled by running the two
    halves in sequence. */
module App {
  import opened Wrappers
  import opened Types
  import opened GeminiService

  datatype Session = Session(lessonPlan: Option<LessonPlanData>, isLoading: bool, error: Option<string>)

  /** The state before any generation. */
  const Initial: Session := Session(None, false, None)

  /** The message shown when something other than an `Error` is thrown. */
  const UnexpectedError: string := "An unexpected error occurred."

  /** Plan and error are never both set. */
  predicate Consistent(s: Session) {
    !(s.lessonPlan.Some? && s.error.Some?)
  }

  // Display conditions of the result area. A string renders only when it
  // is truthy, so an empty error message shows no banner.

  predicate ShowsSpinner(s: Session) {
    s.isLoading
  }

  predicate ShowsError(s: Session) {
    s.error.Some? && s.error.value != ""
  }

  predicate ShowsPlan(s: Session) {
    s.lessonPlan.Some? && !s.isLoading
  }

  /** The first half of `handleGeneratePlan`, before the await. */
  function Begin(s: Session): Session {
    Session(None, true, None)
  }

  /** The text stored for a thrown value. */
  function ErrorText(thrown: Thrown): (text: string)
    ensures thrown.ErrorObject? ==> text == thrown.message
    ensures thrown.OtherValue? ==> text == UnexpectedError
  {
    match thrown
    case ErrorObject(m) => m
    case OtherValue => UnexpectedError
  }

  /** The second half of `handleGeneratePlan`: store the plan or the error
      text, then lower the loading flag. The other slot is left as it was. */
  function Settle(s: Session, outcome: Result<LessonPlanData, Thrown>): Session {
    match outcome
    case Success(plan) => s.(lessonPlan := Some(plan), isLoading := false)
    case Failure(thrown) => s.(error := Some(ErrorText(thrown)), isLoading := false)
  }

  /** One whole generation started from any state, whatever its outcome. */
  function Generate(s: Session, outcome: Result<LessonPlanData, Thrown>): (r: Session)
    ensures !r.isLoading && Consistent(r)
    ensures outcome.Success? ==> r.lessonPlan == Some(outcome.value) && r.error.None?
    ensures outcome.Failure? ==> r.lessonPlan.None? && r.error == Some(ErrorText(outcome.error))
  {
    Settle(Begin(s), outcome)
  }

  /** Starting a generation raises the loading flag and clears both the old
      plan and the old error, whatever the state before; while it is in
      flight only the spinner is shown. (The disabled submit button is
      `PlannerForm.Submit(form, true) == None`.) */
  lemma LoadingShowsOnlySpinner(s: Session)
    ensures Begin(s).isLoading && Begin(s).lessonPlan.None? && Begin(s).error.None?
    ensures ShowsSpinner(Begin(s)) && !ShowsPlan(Begin(s)) && !ShowsError(Begin(s))
    ensures Consistent(Begin(s))
  {
  }

  /** Clearing both slots at the start is what keeps them exclusive: storing
      a plan without it can leave an old error beside the new plan. */
  lemma SettleWithoutBeginBreaksConsistency(plan: LessonPlanData, e: string)
    ensures Consistent(Session(None, false, Some(e)))
    ensures !Consistent(Settle(Session(None, false, Some(e)), Success(plan)))
  {
  }

  /** A session fed any sequence of generation outcomes. */
  function Run(s: Session, outcomes: seq<Result<LessonPlanData, Thrown>>): Session
    decreases |outcomes|
  {
    if |outcomes| == 0 then s else Run(Generate(s, outcomes[0]), outcomes[1..])
  }

  /** From the initial state, through any number of generations, plan and
      error are never both set and the loading flag is down between
      generations. */
  lemma {:induction false} RunConsistent(s: Session, outcomes: seq<Result<LessonPlanData, Thrown>>)
    requires Consistent(s) && !s.isLoading
    ensures Consistent(Run(s, outcomes)) && !Run(s, outcomes).isLoading
    decreases |outcomes|
  {
    if |outcomes| > 0 {
      RunConsistent(Generate(s, outcomes[0]), outcomes[1..]);
    }
  }

  /** The last outcome alone decides what the session holds. */
  lemma {:induction false} RunKeepsLastOutcome(s: Session, outcomes: seq<Result<LessonPlanData, Thrown>>)
    requires |outcomes| > 0
    ensures Run(s, outcomes) == Generate(Initial, outcomes[|outcomes| - 1])
    decreases |outcomes|
  {
    if |outcomes| > 1 {
      RunKeepsLastOutcome(Generate(s, outcomes[0]), outcomes[1..]);
    }
  }

  /** `handleGeneratePlan` with the source's generator: the lemmas below
      speak of `Generate(s, GenerateFrom(t, u, service))` for any template
      text `t`, which for `SourceText` is this function. */
  function HandleGeneratePlan(s: Session, u: UserInputs, service: string -> ServiceReply): Session {
    Generate(s, GeneratePlan(u, service))
  }

  /** With any template text, a finished generation shows exactly one of the
      plan and the error banner, never the spinner, and the error banner
      never carries the fallback for non-`Error` values. */
  lemma GenerationShowsOneResult(t: PromptText, s: Session, u: UserInputs, service: string -> ServiceReply)
    ensures var r := Generate(s, GenerateFrom(t, u, service));
            && !ShowsSpinner(r)
            && (ShowsPlan(r) <==> !ShowsError(r))
            && r.error != Some(UnexpectedError)
  {
    var o := GenerateFrom(t, u, service);
    GenerateFromFailsWithMessage(t, u, service);
    if o.Failure? {
      assert |o.error.message| >= |FailurePrefix| + |FailureSuffix| > |UnexpectedError|;
    }
  }

  /** With any template text, loading ends and the reply alone decides
      which slot is filled: the reconciled plan or the wrapped failure
      message. */
  lemma GenerationOutcome(t: PromptText, s: Session, u: UserInputs, service: string -> ServiceReply)
    ensures var r := Generate(s, GenerateFrom(t, u, service));
            var reply := service(PromptFrom(t, u));
            && (reply.Parsed? ==> r.error.None? && r.lessonPlan == Some(Reconcile(u, reply.plan)))
            && (reply.Threw? ==> r.lessonPlan.None? && r.error.Some?
                                 && CauseOfMessage(r.error.value) == Some(CauseOf(reply.thrown)))
  {
    var reply := service(PromptFrom(t, u));
    if reply.Parsed? {
      ReconcileCharacterized(u, reply.plan, GenerateFrom(t, u, service).value);
    }
  }
}

=== FILE: gemini_service.dfy ===
/** services/geminiService.ts: the prompt sent to the generative model,
    the reconciliation of the model's parsed reply with the user's inputs,
    and the single error into which every failure is wrapped.

    The remote call is the parameter `service`: it receives the built
    prompt and either yields the parsed document or throws. Parsing the
    reply (`JSON.parse` plus the type cast) is part of `service`: a reply
    that does not parse is a `Threw`. */
module GeminiService {
  import opened Wrappers
  import opened Types
  import opened Text

  // ---------------------------------------------------------------------
  // Prompt assembly
  // ---------------------------------------------------------------------

  /** The fixed text of the two prompt templates, split at each
      interpolation: the main template around subject, grade, unit title,
      topic and adaptation sub-prompt, and the adaptation template around
      the educational need and the adaptation tier. */
  datatype PromptText = PromptText(
    rules: string,
    gradeLabel: string,
    unitTitleLabel: string,
    topicLabel: string,
    singleWeek: string,
    tail: string,
    adaptationLead: string,
    adaptationGradeLabel: string,
    adaptationGuidelines: string)

  // The source's own template text.
  const AdaptationLead: string :=
    "\n"
    + "    **SECCIÓN DE ADAPTACIONES CURRICULARES:**\n"
    + "    Adicionalmente, genera una planificación de adaptación "
    + "curricular para un estudiante con la siguiente necesidad:\n"
    + "    -   **Necesidad Educativa Específica:** "

  const AdaptationGradeLabel: string :=
    "\n"
    + "    -   **Grado de Adaptación:** "

  const AdaptationGuidelines: string :=
    "\n"
    + "\n"
    + "    **Directrices para la Adaptación según el Grado "
    + "(Ministerio de Educación de Ecuador):**\n"
    + "    -   **Grado 1 (Acceso al currículo):** No modifiques la "
    + "destreza ni la evaluación. Adapta los recursos (materiales, "
    + "espacios, tiempo) y las metodologías (estrategias de "
    + "enseñanza).\n"
    + "    -   **Grado 2 (Metodológica):** No modifiques la "
    + "destreza. Adapta la metodología, las actividades y la "
    + "evaluación (indicadores, técnicas e instrumentos "
    + "diferentes).\n"
    + "    -   **Grado 3 (Contenidos):** Modifica la destreza con "
    + "criterio de desempeño, reduciendo su complejidad. Adapta la "
    + "metodología y la evaluación de acuerdo a la nueva destreza.\n"
    + "\n"
    + "    Crea un objeto `curricularAdaptation` con las "
    + "adaptaciones correspondientes en la destreza (si es Grado "
    + "3), metodología, recursos y evaluación. Sé específico y "
    + "práctico en las adaptaciones sugeridas.\n"
    + "    "

  const PromptRules: string :=
    "\n"
    + "    Actúa como un experto en diseño curricular para el "
    + "sistema educativo de Ecuador. Tu tarea es crear una "
    + "\"Planificación Microcurricular de Unidad Didáctica\" (PUD) "
    + "completa y detallada.\n"
    + "\n"
    + "    **REGLAS ESTRICTAS:**\n"
    + "    1.  **Currículo Ecuatoriano:** Todo el contenido debe "
    + "basarse estrictamente en el currículo del Ministerio de "
    + "Educación de Ecuador.\n"
    + "    2.  **Destrezas:** Genera 1 destreza con criterio de "
    + "desempeño relevante para el tema. Debe incluir su código "
    + "oficial (ej. M.2.1.3.). Al final de la descripción de la "
    + "destreza, AÑADE el nombre de la competencia clave principal "
    + "que desarrolla, eligiendo entre: \"Comunicacionales\", "
    + "\"Matemáticas\", \"Digitales\", \"Socioemocionales\".\n"
    + "    3.  **Principios DUA:** Las actividades de aprendizaje "
    + "deben estructurarse en tres momentos, correspondiendo a los "
    + "principios del Diseño Universal para el Aprendizaje (DUA):\n"
    + "        -   **Anticipación (REPRESENTACIÓN):** ¿Qué van a "
    + "aprender? Actividades para activar conocimientos previos.\n"
    + "        -   **Construcción (EXPRESIÓN Y ACCIÓN):** ¿Cómo "
    + "van a aprender? Actividades para construir el nuevo "
    + "conocimiento.\n"
    + "        -   **Consolidación (IMPLICACIÓN):** ¿Para qué van "
    + "a aprender? Actividades para aplicar y transferir el "
    + "conocimiento.\n"
    + "    4.  **Inserciones Curriculares:** Selecciona UNA "
    + "inserción curricular relevante para el tema de la siguiente "
    + "lista: \"Educación Cívica, Ética e Integridad\", \"Educación "
    + "para el Desarrollo Sostenible\", \"Educación socioemocional\", "
    + "\"Educación Financiera\", \"Educación para la seguridad vial y "
    + "Movilidad Sostenible\".\n"
    + "    5.  **Formato:** Responde únicamente con el objeto JSON "
    + "que se ajusta al esquema proporcionado. No incluyas texto "
    + "adicional, explicaciones o markdown. Si no se solicita una "
    + "adaptación curricular, el campo 'curricularAdaptation' debe "
    + "ser nulo.\n"
    + "\n"
    + "    **DATOS PARA LA PLANIFICACIÓN:**\n"
    + "    -   **Asignatura:** "

  const PromptGradeLabel: string :=
    "\n"
    + "    -   **Grado/Curso:** "

  const PromptUnitTitleLabel: string :=
    "\n"
    + "    -   **Título de la Unidad:** "

  const PromptTopicLabel: string :=
    "\n"
    + "    -   **Tema Principal de la Semana 1:** "

  const PromptSingleWeek: string :=
    "\n"
    + "\n"
    + "    Genera una planificación para una sola semana.\n"
    + "\n"
    + "    "

  const PromptTail: string :=
    "\n"
    + "    "

  const SourceText: PromptText := PromptText(
    PromptRules, PromptGradeLabel, PromptUnitTitleLabel, PromptTopicLabel, PromptSingleWeek,
    PromptTail, AdaptationLead, AdaptationGradeLabel, AdaptationGuidelines)

  /** The adaptation sub-prompt built from template text `t`: empty unless
      adaptation was requested, otherwise the adaptation instructions with
      the chosen need and tier substituted. */
  function AdaptationFrom(t: PromptText, u: UserInputs): string {
    if !u.needsAdaptation then ""
    else Concat([t.adaptationLead, u.educationalNeed, t.adaptationGradeLabel, u.adaptationGrade,
                 t.adaptationGuidelines])
  }

  /** Whatever the template text, a requested adaptation sub-prompt holds its
      lead-in, the chosen need and tier, and the tier guidelines. */
  lemma AdaptationFromCarriesChoice(t: PromptText, u: UserInputs)
    requires u.needsAdaptation
    ensures Contains(AdaptationFrom(t, u), t.adaptationLead)
    ensures Contains(AdaptationFrom(t, u), u.educationalNeed)
    ensures Contains(AdaptationFrom(t, u), u.adaptationGrade)
    ensures Contains(AdaptationFrom(t, u), t.adaptationGuidelines)
  {
    var parts := [t.adaptationLead, u.educationalNeed, t.adaptationGradeLabel, u.adaptationGrade,
                  t.adaptationGuidelines];
    ConcatContains(parts, 0);
    ConcatContains(parts, 1);
    ConcatContains(parts, 3);
    ConcatContains(parts, 4);
  }

  /** The parts of the main template, in order. */
  function PromptParts(t: PromptText, u: UserInputs): seq<string> {
    [t.rules, u.subject, t.gradeLabel, u.grade, t.unitTitleLabel, u.unitTitle,
     t.topicLabel, u.topic, t.singleWeek, AdaptationFrom(t, u), t.tail]
  }

  /** The main prompt built from template text `t`. */
  function PromptFrom(t: PromptText, u: UserInputs): string {
    Concat(PromptParts(t, u))
  }

  /** Whatever the template text, the fields that feed the prompt appear in
      it verbatim, with no escaping. */
  lemma PromptFromCarriesInputs(t: PromptText, u: UserInputs)
    ensures Contains(PromptFrom(t, u), u.subject)
    ensures Contains(PromptFrom(t, u), u.grade)
    ensures Contains(PromptFrom(t, u), u.unitTitle)
    ensures Contains(PromptFrom(t, u), u.topic)
    ensures Contains(PromptFrom(t, u), AdaptationFrom(t, u))
    ensures u.needsAdaptation ==>
              Contains(PromptFrom(t, u), u.educationalNeed) && Contains(PromptFrom(t, u), u.adaptationGrade)
  {
    var parts := PromptParts(t, u);
    ConcatContains(parts, 1);
    ConcatContains(parts, 3);
    ConcatContains(parts, 5);
    ConcatContains(parts, 7);
    ConcatContains(parts, 9);
    if u.needsAdaptation {
      AdaptationFromCarriesChoice(t, u);
      ContainsTransitive(PromptFrom(t, u), AdaptationFrom(t, u), u.educationalNeed);
      ContainsTransitive(PromptFrom(t, u), AdaptationFrom(t, u), u.adaptationGrade);
    }
  }

  /** With a non-empty lead-in, the adaptation sub-prompt is empty exactly
      when adaptation is not requested. */
  lemma AdaptationFromEmptyIff(t: PromptText, u: UserInputs)
    requires t.adaptationLead != ""
    ensures AdaptationFrom(t, u) == "" <==> !u.needsAdaptation
  {
    if u.needsAdaptation {
      AdaptationFromCarriesChoice(t, u);
      ContainsLength(AdaptationFrom(t, u), t.adaptationLead);
    }
  }

  /** The institution, teacher, date and academic year are never sent to
      the model, and the adaptation choices only when adaptation is
      requested: inputs that agree on everything else give the same prompt. */
  lemma PromptFromIgnoresOtherFields(t: PromptText, u1: UserInputs, u2: UserInputs)
    requires u1.subject == u2.subject && u1.grade == u2.grade
    requires u1.unitTitle == u2.unitTitle && u1.topic == u2.topic
    requires u1.needsAdaptation == u2.needsAdaptation
    requires u1.needsAdaptation ==>
               u1.educationalNeed == u2.educationalNeed && u1.adaptationGrade == u2.adaptationGrade
    ensures PromptFrom(t, u1) == PromptFrom(t, u2)
  {
  }

  /** The adaptation sub-prompt of the source (`getAdaptationPrompt`). */
  function AdaptationPrompt(u: UserInputs): string {
    AdaptationFrom(SourceText, u)
  }

  /** The prompt the source sends to the model. */
  function BuildPrompt(u: UserInputs): string {
    PromptFrom(SourceText, u)
  }

  /** The source's adaptation sub-prompt is empty exactly when adaptation is
      not requested; otherwise it names the chosen need and tier verbatim. */
  lemma AdaptationPromptLaw(u: UserInputs)
    ensures AdaptationPrompt(u) == "" <==> !u.needsAdaptation
    ensures u.needsAdaptation ==>
              Contains(AdaptationPrompt(u), u.educationalNeed) && Contains(AdaptationPrompt(u), u.adaptationGrade)
  {
    AdaptationFromEmptyIff(SourceText, u);
    if u.needsAdaptation {
      AdaptationFromCarriesChoice(SourceText, u);
    }
  }

  // ---------------------------------------------------------------------
  // Response reconciliation
  // ---------------------------------------------------------------------

  /** The seven administrative fields come from the user and the unit number
      is 1. */
  predicate HeaderFromInputs(u: UserInputs, p: LessonPlanData) {
    && p.institution == u.institution
    && p.teacher == u.teacher
    && p.date == u.date
    && p.academicYear == u.academicYear
    && p.subject == u.subject
    && p.grade == u.grade
    && p.unitTitle == u.unitTitle
    && p.unitNumber == 1
  }

  /** The generated content passes through from the model untouched. */
  predicate ContentFromModel(parsed: LessonPlanData, p: LessonPlanData) {
    && p.unitObjective == parsed.unitObjective
    && p.evaluationCriteria == parsed.evaluationCriteria
    && p.curricularInsertions == parsed.curricularInsertions
    && p.weeklyPlans == parsed.weeklyPlans
  }

  /** The adaptation presence law: absent unless requested; when requested,
      present exactly when the model sent one, with the user's need and tier
      and the model's four adaptation texts. */
  predicate AdaptationLaw(u: UserInputs, sent: Option<CurricularAdaptation>, kept: Option<CurricularAdaptation>) {
    && (!u.needsAdaptation ==> kept.None?)
    && (u.needsAdaptation ==> (kept.Some? <==> sent.Some?))
    && (u.needsAdaptation && sent.Some? && kept.Some? ==>
          && kept.value.educationalNeed == u.educationalNeed
          && kept.value.adaptationGrade == u.adaptationGrade
          && kept.value.skillAdaptation == sent.value.skillAdaptation
          && kept.value.methodologyAdaptation == sent.value.methodologyAdaptation
          && kept.value.resourceAdaptation == sent.value.resourceAdaptation
          && kept.value.evaluationAdaptation == sent.value.evaluationAdaptation)
  }

  /** Drops the adaptation block unless requested; otherwise stamps the
      user's need and tier onto whatever block the model sent. */
  function ReconcileAdaptation(u: UserInputs, sent: Option<CurricularAdaptation>): (kept: Option<CurricularAdaptation>)
    ensures AdaptationLaw(u, sent, kept)
  {
    if !u.needsAdaptation then None
    else
      match sent
      case None => None
      case Some(a) => Some(a.(educationalNeed := u.educationalNeed, adaptationGrade := u.adaptationGrade))
  }

  /** The post-parse overlay of the user's inputs onto the model's plan. */
  function Reconcile(u: UserInputs, parsed: LessonPlanData): (r: LessonPlanData)
    ensures HeaderFromInputs(u, r)
    ensures ContentFromModel(parsed, r)
    ensures AdaptationLaw(u, parsed.curricularAdaptation, r.curricularAdaptation)
  {
    parsed.(
      curricularAdaptation := ReconcileAdaptation(u, parsed.curricularAdaptation),
      institution := u.institution,
      teacher := u.teacher,
      date := u.date,
      academicYear := u.academicYear,
      subject := u.subject,
      grade := u.grade,
      unitTitle := u.unitTitle,
      unitNumber := 1)
  }

  /** The three laws pin the reconciled plan down completely: a plan is the
      reconciliation of `parsed` exactly when it obeys all three. */
  lemma ReconcileCharacterized(u: UserInputs, parsed: LessonPlanData, q: LessonPlanData)
    ensures q == Reconcile(u, parsed) <==>
              && HeaderFromInputs(u, q)
              && ContentFromModel(parsed, q)
              && AdaptationLaw(u, parsed.curricularAdaptation, q.curricularAdaptation)
  {
    if HeaderFromInputs(u, q) && ContentFromModel(parsed, q)
       && AdaptationLaw(u, parsed.curricularAdaptation, q.curricularAdaptation)
    {
      var r := Reconcile(u, parsed);
      if q.curricularAdaptation.Some? {
        assert q.curricularAdaptation.value == r.curricularAdaptation.value;
      }
      assert q.curricularAdaptation == r.curricularAdaptation;
    }
  }

  /** Reconciling an already reconciled plan with the same inputs changes
      nothing. */
  lemma ReconcileIdempotent(u: UserInputs, parsed: LessonPlanData)
    ensures Reconcile(u, Reconcile(u, parsed)) == Reconcile(u, parsed)
  {
  }

  /** Two replies that carry the same generated content. */
  predicate SameGeneratedContent(u: UserInputs, p1: LessonPlanData, p2: LessonPlanData) {
    && ContentFromModel(p1, p2)
    && (u.needsAdaptation ==>
          match (p1.curricularAdaptation, p2.curricularAdaptation)
          case (None, None) => true
          case (Some(a1), Some(a2)) =>
            && a1.skillAdaptation == a2.skillAdaptation
            && a1.methodologyAdaptation == a2.methodologyAdaptation
            && a1.resourceAdaptation == a2.resourceAdaptation
            && a1.evaluationAdaptation == a2.evaluationAdaptation
          case _ => false)
  }

  /** What the model says about the administrative fields, the unit number
      and the adaptation's need and tier is discarded: replies that agree on
      the generated content reconcile to the same plan. */
  lemma ModelHeaderIsAdvisory(u: UserInputs, p1: LessonPlanData, p2: LessonPlanData)
    requires SameGeneratedContent(u, p1, p2)
    ensures Reconcile(u, p1) == Reconcile(u, p2)
  {
    ReconcileCharacterized(u, p1, Reconcile(u, p2));
  }

  /** The topic never reaches the plan, and the need and tier reach it only
      when adaptation is requested. */
  lemma InputOnlyFieldsStayOut(u1: UserInputs, u2: UserInputs, parsed: LessonPlanData)
    requires u1.institution == u2.institution && u1.teacher == u2.teacher
    requires u1.date == u2.date && u1.academicYear == u2.academicYear
    requires u1.subject == u2.subject && u1.grade == u2.grade && u1.unitTitle == u2.unitTitle
    requires u1.needsAdaptation == u2.needsAdaptation
    requires u1.needsAdaptation ==>
               u1.educationalNeed == u2.educationalNeed && u1.adaptationGrade == u2.adaptationGrade
    ensures Reconcile(u1, parsed) == Reconcile(u2, parsed)
  {
  }

  // ---------------------------------------------------------------------
  // Failure wrapping
  // ---------------------------------------------------------------------

  /** A thrown value: an `Error` object with its message, or anything else. */
  datatype Thrown = ErrorObject(message: string) | OtherValue

  /** The model's reply as seen after parsing. */
  datatype ServiceReply = Parsed(plan: LessonPlanData) | Threw(thrown: Thrown)

  const FailurePrefix: string := "Failed to generate lesson plan: "
  const FailureSuffix: string := ". Please check your API key and network connection."
  const UnknownCause: string := "An unknown error occurred while generating the plan."

  /** The cause reported for a thrown value. */
  function CauseOf(t: Thrown): (cause: string)
    ensures t.ErrorObject? ==> cause == t.message
    ensures t.OtherValue? ==> cause == UnknownCause
  {
    match t
    case ErrorObject(m) => m
    case OtherValue => UnknownCause
  }

  /** The one message every generation failure is reported with. */
  function FailureMessage(cause: string): (msg: string)
    ensures |msg| == |FailurePrefix| + |cause| + |FailureSuffix|
    ensures msg[..|FailurePrefix|] == FailurePrefix
    ensures msg[|msg| - |FailureSuffix|..] == FailureSuffix
  {
    FailurePrefix + cause + FailureSuffix
  }

  /** Recovers the cause from a failure message; `None` for any other text. */
  function CauseOfMessage(msg: string): Option<string> {
    if |msg| >= |FailurePrefix| + |FailureSuffix|
       && msg[..|FailurePrefix|] == FailurePrefix
       && msg[|msg| - |FailureSuffix|..] == FailureSuffix
    then Some(msg[|FailurePrefix|..|msg| - |FailureSuffix|])
    else None
  }

  /** The cause can always be read back out of the failure message. */
  lemma CauseOfFailureMessage(cause: string)
    ensures CauseOfMessage(FailureMessage(cause)) == Some(cause)
  {
    var msg := FailureMessage(cause);
    assert msg[|FailurePrefix|..|msg| - |FailureSuffix|] == cause;
  }

  /** Any text the reader accepts is the failure message of what it read. */
  lemma FailureMessageOfCause(msg: string)
    requires CauseOfMessage(msg).Some?
    ensures FailureMessage(CauseOfMessage(msg).value) == msg
  {
    var cause := CauseOfMessage(msg).value;
    assert msg == msg[..|FailurePrefix|] + cause + msg[|msg| - |FailureSuffix|..];
  }

  /** One generation with template text `t`: build the prompt, call the
      model, reconcile the parsed reply, or throw an `Error` carrying the
      wrapped cause. */
  function GenerateFrom(t: PromptText, u: UserInputs, service: string -> ServiceReply): (r: Result<LessonPlanData, Thrown>)
    ensures service(PromptFrom(t, u)).Parsed? ==>
              r.Success? && HeaderFromInputs(u, r.value)
              && ContentFromModel(service(PromptFrom(t, u)).plan, r.value)
              && AdaptationLaw(u, service(PromptFrom(t, u)).plan.curricularAdaptation, r.value.curricularAdaptation)
    ensures service(PromptFrom(t, u)).Threw? ==>
              r.Failure? && r.error.ErrorObject?
              && CauseOfMessage(r.error.message) == Some(CauseOf(service(PromptFrom(t, u)).thrown))
  {
    match service(PromptFrom(t, u))
    case Parsed(plan) => Success(Reconcile(u, plan))
    case Threw(thrown) =>
      CauseOfFailureMessage(CauseOf(thrown));
      Failure(ErrorObject(FailureMessage(CauseOf(thrown))))
  }

  /** Whatever the template text, every failure is an `Error` whose message
      is the non-empty wrapped failure text. */
  lemma GenerateFromFailsWithMessage(t: PromptText, u: UserInputs, service: string -> ServiceReply)
    ensures GenerateFrom(t, u, service).Failure? ==>
              && GenerateFrom(t, u, service).error.ErrorObject?
              && CauseOfMessage(GenerateFrom(t, u, service).error.message).Some?
              && GenerateFrom(t, u, service).error.message != ""
  {
    var r := GenerateFrom(t, u, service);
    if r.Failure? {
      FailureMessageOfCause(r.error.message);
    }
  }

  /** `generatePlan`: one generation with the source's prompt text. */
  function GeneratePlan(u: UserInputs, service: string -> ServiceReply): Result<LessonPlanData, Thrown> {
    GenerateFrom(SourceText, u, service)
  }
}

=== FILE: lesson_plan.dfy ===
/** components/LessonPlan.tsx, the parts that are data rather than markup:
    the download names, the ids of the tables the PDF exporter looks up,
    and the strings placed in the cells of the informative table. */
module LessonPlan {
  import opened Wrappers
  import opened Types
  import opened Text
  import opened GeminiService

  // ---------------------------------------------------------------------
  // Download names
  // ---------------------------------------------------------------------

  const ExportStem: string := "Planificacion-"

  /** `Planificacion-${subject.replace(' ', '_')}`: a string pattern, so only
      the first space becomes an underscore. */
  function ExportBaseName(subject: string): (name: string)
    ensures |name| == |ExportStem| + |subject|
    ensures name[..|ExportStem|] == ExportStem
    ensures ' ' !in subject ==> name[|ExportStem|..] == subject
    ensures ' ' in subject ==>
              var k := IndexOf(subject, ' ');
              && name[|ExportStem| + k] == '_'
              && forall i :: 0 <= i < |subject| && i != k ==> name[|ExportStem| + i] == subject[i]
  {
    ExportStem + ReplaceFirst(subject, ' ', '_')
  }

  /** The PDF exporter saves under the base name plus `.pdf`. */
  function PdfFileName(subject: string): (name: string)
    ensures |name| == |ExportBaseName(subject)| + 4
    ensures name[..|name| - 4] == ExportBaseName(subject) && name[|name| - 4..] == ".pdf"
  {
    ExportBaseName(subject) + ".pdf"
  }

  /** The Word download is named the base name plus `.docx`, used as is. */
  function WordFileName(subject: string): (name: string)
    ensures |name| == |ExportBaseName(subject)| + 5
    ensures name[..|name| - 5] == ExportBaseName(subject) && name[|name| - 5..] == ".docx"
  {
    ExportBaseName(subject) + ".docx"
  }

  /** Only the first space is replaced: the subject part of the name has
      exactly one space fewer, so a subject with two or more spaces keeps a
      space in both download names. */
  lemma LaterSpacesSurvive(subject: string)
    requires multiset(subject)[' '] >= 2
    ensures multiset(ExportBaseName(subject)[|ExportStem|..])[' '] == multiset(subject)[' '] - 1
    ensures ' ' in PdfFileName(subject) && ' ' in WordFileName(subject)
  {
    var tail := ReplaceFirst(subject, ' ', '_');
    ReplaceFirstCount(subject, ' ', '_');
    assert ExportBaseName(subject)[|ExportStem|..] == tail;
    assert ' ' in multiset(tail);
    assert PdfFileName(subject) == ExportStem + tail + ".pdf";
    assert WordFileName(subject) == ExportStem + tail + ".docx";
    InnerCharSurvives(ExportStem, tail, ".pdf", ' ');
    InnerCharSurvives(ExportStem, tail, ".docx", ' ');
  }

  /** A character of the middle piece occurs in the whole. */
  lemma InnerCharSurvives(a: string, t: string, b: string, c: char)
    requires c in t
    ensures c in a + t + b
  {
    var j :| 0 <= j < |t| && t[j] == c;
    assert (a + t + b)[|a| + j] == c;
  }

  /** Replacing the first space of a subject whose only space sits between
      `a` and `b` is the same as writing the underscore in. */
  lemma ReplaceOnlySpace(a: string, b: string)
    requires ' ' !in a
    ensures ReplaceFirst(a + " " + b, ' ', '_') == a + "_" + b
  {
    var s := a + " " + b;
    assert s[|a|] == ' ';
    var k := IndexOf(s, ' ');
    assert k == |a|;
    var r := ReplaceFirst(s, ' ', '_');
    assert forall i :: 0 <= i < |s| ==> r[i] == (a + "_" + b)[i];
  }

  /** Because only one space is rewritten, two subjects that differ only in
      writing their one space as an underscore download under the same name:
      the name does not identify the subject. */
  lemma SpaceAndUnderscoreShareName(a: string, b: string)
    requires ' ' !in a && ' ' !in b
    ensures a + " " + b != a + "_" + b
    ensures ExportBaseName(a + " " + b) == ExportBaseName(a + "_" + b)
  {
    assert (a + " " + b)[|a|] != (a + "_" + b)[|a|];
    ReplaceOnlySpace(a, b);
    assert ' ' !in a + "_" + b by {
      forall i | 0 <= i < |a + "_" + b| ensures (a + "_" + b)[i] != ' ' {
        if i < |a| {
          assert (a + "_" + b)[i] == a[i];
        } else if i > |a| {
          assert (a + "_" + b)[i] == b[i - |a| - 1];
        }
      }
    }
  }

  // ---------------------------------------------------------------------
  // Table ids
  // ---------------------------------------------------------------------

  const InformativeTableId: string := "informative-data-table"
  const WeeklyTablePrefix: string := "weekly-plan-table-"
  const AdaptationInfoTableId: string := "adaptation-info-table"
  const AdaptationPlanTableId: string := "adaptation-plan-table"

  /** `weekly-plan-table-${index}`. */
  function WeeklyTableId(index: nat): string {
    WeeklyTablePrefix + NatToString(index)
  }

  /** Reads the index back from a weekly table id. */
  function WeeklyIndexOf(id: string): Option<nat> {
    var n := |WeeklyTablePrefix|;
    if |id| > n && id[..n] == WeeklyTablePrefix && forall i :: n <= i < |id| ==> IsDigit(id[i])
    then
      assert forall i :: 0 <= i < |id[n..]| ==> IsDigit(id[n..][i]);
      Some(ParseNat(id[n..]))
    else None
  }

  /** A weekly table id names its index, and no other id is read as one. */
  lemma WeeklyIdRoundTrip(index: nat)
    ensures WeeklyIndexOf(WeeklyTableId(index)) == Some(index)
    ensures WeeklyIndexOf(InformativeTableId).None?
    ensures WeeklyIndexOf(AdaptationInfoTableId).None? && WeeklyIndexOf(AdaptationPlanTableId).None?
  {
    var id := WeeklyTableId(index);
    assert id[..|WeeklyTablePrefix|] == WeeklyTablePrefix;
    assert id[|WeeklyTablePrefix|..] == NatToString(index);
    ParseNatToString(index);
    assert InformativeTableId[0] != WeeklyTablePrefix[0];
    assert AdaptationInfoTableId[0] != WeeklyTablePrefix[0];
    assert AdaptationPlanTableId[0] != WeeklyTablePrefix[0];
  }

  /** The ids of the weekly tables for the first `n` weeks, in order. */
  function WeeklyTableIds(n: nat): (ids: seq<string>)
    ensures |ids| == n
    ensures forall i :: 0 <= i < n ==> ids[i] == WeeklyTableId(i)
  {
    if n == 0 then [] else WeeklyTableIds(n - 1) + [WeeklyTableId(n - 1)]
  }

  /** Every table the rendered plan carries, in document order: the
      informative table, one table per week in list order, and the two
      adaptation tables when the plan holds an adaptation. */
  function TableIds(plan: LessonPlanData): (ids: seq<string>)
    ensures |ids| == 1 + |plan.weeklyPlans| + (if plan.curricularAdaptation.Some? then 2 else 0)
    ensures ids[0] == InformativeTableId
    ensures forall i :: 0 <= i < |plan.weeklyPlans| ==> ids[1 + i] == WeeklyTableId(i)
    ensures ids[1 + |plan.weeklyPlans|..]
            == if plan.curricularAdaptation.Some? then [AdaptationInfoTableId, AdaptationPlanTableId] else []
  {
    var weekly := WeeklyTableIds(|plan.weeklyPlans|);
    var extra := if plan.curricularAdaptation.Some? then [AdaptationInfoTableId, AdaptationPlanTableId] else [];
    var ids := [InformativeTableId] + weekly + extra;
    assert ids[1 + |weekly|..] == extra;
    ids
  }

  /** The two adaptation tables are rendered exactly when the plan holds an
      adaptation. */
  lemma AdaptationTablesIff(plan: LessonPlanData)
    ensures AdaptationInfoTableId in TableIds(plan) <==> plan.curricularAdaptation.Some?
    ensures AdaptationPlanTableId in TableIds(plan) <==> plan.curricularAdaptation.Some?
  {
    var ids := TableIds(plan);
    var w := |plan.weeklyPlans|;
    if plan.curricularAdaptation.Some? {
      assert ids[1 + w..][0] == ids[1 + w] == AdaptationInfoTableId;
      assert ids[1 + w..][1] == ids[2 + w] == AdaptationPlanTableId;
    } else {
      forall i | 0 <= i < |ids| ensures ids[i][0] != 'a' {
        if i > 0 {
          assert ids[i] == WeeklyTableId(i - 1);
          assert ids[i][0] == WeeklyTablePrefix[0];
        }
      }
      assert AdaptationInfoTableId[0] == 'a' && AdaptationPlanTableId[0] == 'a';
    }
  }

  /** Weekly ids of different weeks differ. */
  lemma WeeklyIdsDistinct(a: nat, b: nat)
    requires a != b
    ensures WeeklyTableId(a) != WeeklyTableId(b)
  {
    WeeklyIdRoundTrip(a);
    WeeklyIdRoundTrip(b);
  }

  /** Among the informative and weekly tables, ids differ. */
  lemma WeeklyRegionDistinct(plan: LessonPlanData, i: nat, j: nat)
    requires i < j <= |plan.weeklyPlans|
    ensures TableIds(plan)[i] != TableIds(plan)[j]
  {
    var ids := TableIds(plan);
    if i >= 1 {
      WeeklyIdsDistinct(i - 1, j - 1);
    } else {
      assert ids[j][0] == WeeklyTablePrefix[0] != InformativeTableId[0];
    }
  }

  /** An adaptation table's id differs from every id before it. */
  lemma AdaptationRegionDistinct(plan: LessonPlanData, i: nat, j: nat)
    requires |plan.weeklyPlans| < j < |TableIds(plan)| && i < j
    ensures TableIds(plan)[i] != TableIds(plan)[j]
  {
    var ids := TableIds(plan);
    var w := |plan.weeklyPlans|;
    var extra := ids[1 + w..];
    assert ids[j] == extra[j - 1 - w];
    assert ids[j][0] == 'a';
    if 1 <= i <= w {
      assert ids[i][0] == WeeklyTablePrefix[0];
    } else if i > w {
      assert ids[i] == extra[0] && ids[j] == extra[1];
      assert AdaptationInfoTableId[11] != AdaptationPlanTableId[11];
    } else {
      assert ids[i][0] == InformativeTableId[0];
    }
  }

  /** Two positions of the table list hold different ids. */
  lemma TableIdsDistinctAt(plan: LessonPlanData, i: nat, j: nat)
    requires i < j < |TableIds(plan)|
    ensures TableIds(plan)[i] != TableIds(plan)[j]
  {
    if j <= |plan.weeklyPlans| {
      WeeklyRegionDistinct(plan, i, j);
    } else {
      AdaptationRegionDistinct(plan, i, j);
    }
  }

  /** No two tables share an id, so each lookup by id finds its own table. */
  lemma TableIdsDistinct(plan: LessonPlanData)
    ensures var ids := TableIds(plan);
            forall i, j :: 0 <= i < j < |ids| ==> ids[i] != ids[j]
  {
    forall i: nat, j: nat | i < j < |TableIds(plan)| ensures TableIds(plan)[i] != TableIds(plan)[j] {
      TableIdsDistinctAt(plan, i, j);
    }
  }

  // ---------------------------------------------------------------------
  // Cells of the informative table
  // ---------------------------------------------------------------------

  /** `{plan.unitNumber}. {plan.unitTitle}`. */
  function UnitCell(plan: LessonPlanData): (cell: string)
    ensures |cell| > |plan.unitTitle| + 2
    ensures cell[|cell| - |plan.unitTitle| - 2..] == ". " + plan.unitTitle
    ensures cell[0] == '-' <==> plan.unitNumber < 0
  {
    IntToString(plan.unitNumber) + ". " + plan.unitTitle
  }

  /** The text before ". " in the unit cell is the canonical decimal
      rendering of the unit number: digits with no leading zero (after the
      minus sign for a negative one) that read back as the number. */
  lemma UnitCellReadsBack(plan: LessonPlanData)
    ensures var cell := UnitCell(plan);
            var k := |cell| - |plan.unitTitle| - 2;
            && (plan.unitNumber >= 0 ==>
                  1 <= k && (cell[0] == '0' ==> plan.unitNumber == 0 && k == 1)
                  && (forall j :: 0 <= j < k ==> IsDigit(cell[..k][j]))
                  && ParseNat(cell[..k]) == plan.unitNumber)
            && (plan.unitNumber < 0 ==>
                  2 <= k && cell[1] != '0'
                  && (forall j :: 0 <= j < k - 1 ==> IsDigit(cell[1..k][j]))
                  && ParseNat(cell[1..k]) == -plan.unitNumber)
  {
    var cell := UnitCell(plan);
    var n := IntToString(plan.unitNumber);
    assert cell[..|n|] == n;
    IntToStringReadsBack(plan.unitNumber);
    if plan.unitNumber < 0 {
      assert cell[1..|n|] == n[1..];
    }
  }

  /** `curricularInsertions.join(', ')`. */
  function InsertionsCell(plan: LessonPlanData): string {
    Join(plan.curricularInsertions, ", ")
  }

  /** The insertions cell shows every insertion verbatim, separated by
      ", ", and nothing else; no insertions give an empty cell. */
  lemma InsertionsCellShowsEach(plan: LessonPlanData)
    ensures forall i :: 0 <= i < |plan.curricularInsertions| ==>
              Contains(InsertionsCell(plan), plan.curricularInsertions[i])
    ensures |plan.curricularInsertions| >= 1 ==>
              |InsertionsCell(plan)| == TotalLength(plan.curricularInsertions) + 2 * (|plan.curricularInsertions| - 1)
    ensures |plan.curricularInsertions| == 0 ==> InsertionsCell(plan) == ""
  {
    forall i | 0 <= i < |plan.curricularInsertions|
      ensures Contains(InsertionsCell(plan), plan.curricularInsertions[i])
    {
      JoinContains(plan.curricularInsertions, ", ", i);
    }
    if |plan.curricularInsertions| >= 1 {
      JoinLength(plan.curricularInsertions, ", ");
    }
  }

  /** The insertions appear in list order with exactly one ", " between
      neighbours: cutting the list anywhere cuts the cell at a separator,
      and a single insertion is shown alone. */
  lemma InsertionsCellOrder(plan: LessonPlanData)
    ensures forall i :: 0 < i < |plan.curricularInsertions| ==>
              InsertionsCell(plan)
              == Join(plan.curricularInsertions[..i], ", ") + ", " + Join(plan.curricularInsertions[i..], ", ")
    ensures |plan.curricularInsertions| == 1 ==> InsertionsCell(plan) == plan.curricularInsertions[0]
  {
    forall i | 0 < i < |plan.curricularInsertions|
      ensures InsertionsCell(plan)
              == Join(plan.curricularInsertions[..i], ", ") + ", " + Join(plan.curricularInsertions[i..], ", ")
    {
      JoinSplit(plan.curricularInsertions, ", ", i);
    }
  }

  /** A labelled cell of the informative table. */
  datatype Cell = Cell(heading: string, value: string)

  /** The informative table, row by row and left to right. Both the area
      and the subject cells show `subject`. */
  function InformativeCells(plan: LessonPlanData): seq<Cell> {
    [ Cell("NOMBRE DE LA INSTITUCIÓN:", plan.institution),
      Cell("FECHA:", plan.date),
      Cell("NOMBRE DEL DOCENTE:", plan.teacher),
      Cell("AÑO LECTIVO:", plan.academicYear),
      Cell("ÁREA:", plan.subject),
      Cell("ASIGNATURA:", plan.subject),
      Cell("UNIDAD DIDÁCTICA:", UnitCell(plan)),
      Cell("GRADO/CURSO:", plan.grade),
      Cell("OBJETIVO DE UNIDAD:", plan.unitObjective),
      Cell("CRITERIO DE EVALUACIÓN:", plan.evaluationCriteria),
      Cell("INSERCIONES CURRICULARES:", InsertionsCell(plan)) ]
  }

  /** The headings and their order are fixed, whatever the plan, and both
      the area and the subject cell show the plan's subject. */
  lemma InformativeLayout(p1: LessonPlanData, p2: LessonPlanData)
    ensures |InformativeCells(p1)| == |InformativeCells(p2)| == 11
    ensures forall i :: 0 <= i < 11 ==> InformativeCells(p1)[i].heading == InformativeCells(p2)[i].heading
    ensures InformativeCells(p1)[4].value == InformativeCells(p1)[5].value == p1.subject
    ensures InformativeCells(p1)[8].value == p1.unitObjective
    ensures InformativeCells(p1)[9].value == p1.evaluationCriteria
  {
  }

  /** Once a reply is reconciled, the header of the rendered plan shows what
      the teacher typed, whatever the model wrote there: the unit is always
      unit 1, and the model decides only the objective, the criterion and
      the insertions. */
  lemma ReconciledHeaderShowsInputs(u: UserInputs, parsed: LessonPlanData)
    ensures var cells := InformativeCells(Reconcile(u, parsed));
            && cells[0].value == u.institution && cells[1].value == u.date
            && cells[2].value == u.teacher && cells[3].value == u.academicYear
            && cells[4].value == u.subject && cells[5].value == u.subject
            && cells[6].value == "1. " + u.unitTitle && cells[7].value == u.grade
            && cells[8].value == parsed.unitObjective
            && cells[9].value == parsed.evaluationCriteria
            && cells[10].value == InsertionsCell(parsed)
  {
    var r := Reconcile(u, parsed);
    assert NatToString(1) == "1";
    assert UnitCell(r) == "1" + ". " + u.unitTitle;
  }

  /** Once a reply is reconciled, the two adaptation tables are rendered
      exactly when the teacher asked for an adaptation and the model sent
      one. */
  lemma ReconciledAdaptationTables(u: UserInputs, parsed: LessonPlanData)
    ensures AdaptationInfoTableId in TableIds(Reconcile(u, parsed))
            <==> u.needsAdaptation && parsed.curricularAdaptation.Some?
    ensures AdaptationPlanTableId in TableIds(Reconcile(u, parsed))
            <==> u.needsAdaptation && parsed.curricularAdaptation.Some?
  {
    AdaptationTablesIff(Reconcile(u, parsed));
  }
}

=== FILE: loading_spinner.dfy ===
/** components/LoadingSpinner.tsx: while a plan is being generated, a status
    line cycles through a fixed list of messages, one step per timer tick.
    The timer is left out; a tick is a call of `Tick`. */
module LoadingSpinner {

  const LoadingMessages: seq<string> := [
    "Analizando el currículo ecuatoriano...",
    "Consultando directrices del Ministerio de Educación...",
    "Generando destrezas con criterio de desempeño...",
    "Integrando principios de Diseño Universal para el Aprendizaje (DUA)...",
    "Alineando con competencias clave...",
    "Elaborando actividades de aprendizaje...",
    "Finalizando la planificación..."
  ]

  /** The index the component starts with. */
  const InitialIndex: nat := 0

  /** One tick: the next message, wrapping after the last. */
  function Tick(index: nat): (next: nat)
    ensures next < |LoadingMessages|
    ensures (index + 1 - next) % |LoadingMessages| == 0
  {
    (index + 1) % |LoadingMessages|
  }

  /** The message on screen for an index. */
  function CurrentMessage(index: nat): string
    requires index < |LoadingMessages|
  {
    LoadingMessages[index]
  }

  /** The index after `k` ticks from `index`. */
  function TicksFrom(index: nat, k: nat): nat
    decreases k
  {
    if k == 0 then index else Tick(TicksFrom(index, k - 1))
  }

  /** Stepping the remainder is stepping the number. */
  lemma TickOfRemainder(x: nat)
    ensures Tick(x % |LoadingMessages|) == Tick(x)
  {
    var n := |LoadingMessages|;
    var q, r := x / n, x % n;
    assert x == n * q + r;
    if r + 1 < n {
      assert x + 1 == n * q + (r + 1);
    } else {
      assert x + 1 == n * (q + 1);
    }
  }

  /** After `k` ticks from an in-range index, the index has advanced by `k`
      around the cycle. */
  lemma {:induction false} TicksFromAdvances(index: nat, k: nat)
    requires index < |LoadingMessages|
    ensures TicksFrom(index, k) == (index + k) % |LoadingMessages|
    decreases k
  {
    if k > 0 {
      TicksFromAdvances(index, k - 1);
      TickOfRemainder(index + k - 1);
    }
  }

  /** After `k` ticks from the start the spinner shows message `k mod 7`:
      the access is always in bounds, every message appears in the first
      seven ticks in list order, and seven ticks bring back the same one. */
  lemma SpinnerAfter(k: nat)
    ensures TicksFrom(InitialIndex, k) < |LoadingMessages|
    ensures CurrentMessage(TicksFrom(InitialIndex, k)) == LoadingMessages[k % |LoadingMessages|]
    ensures k < |LoadingMessages| ==> TicksFrom(InitialIndex, k) == k
    ensures TicksFrom(InitialIndex, k + |LoadingMessages|) == TicksFrom(InitialIndex, k)
  {
    TicksFromAdvances(InitialIndex, k);
    TicksFromAdvances(InitialIndex, k + |LoadingMessages|);
  }
}

=== FILE: planner_form.dfy ===
/** components/PlannerForm.tsx: the form's state is a `UserInputs` record.
    Eight text inputs (all `required`), one checkbox (`needsAdaptation`) and
    two selects, rendered only while the checkbox is ticked, edit it; each
    change event overwrites exactly the field named by its control. */
module PlannerForm {
  import opened Wrappers
  import opened Types

  /** The fields edited through text inputs and selects. */
  datatype TextField =
    | Institution | Teacher | Date | AcademicYear | Subject | Grade | UnitTitle | Topic
    | EducationalNeed | AdaptationGrade

  /** A change event. The form's only checkbox is `needsAdaptation`; every
      other control carries a string value. */
  datatype ChangeEvent = CheckboxChange(checked: bool) | ValueChange(name: TextField, value: string)

  /** The choices of the educational-need select; each option's value is its text. */
  const EducationalNeedOptions: seq<string> := [
    "Dificultades de Aprendizaje (DEA)",
    "Discapacidad Intelectual",
    "Discapacidad Auditiva",
    "Discapacidad Visual",
    "Trastorno del Espectro Autista (TEA)",
    "Trastorno por Déficit de Atención e Hiperactividad (TDAH)"
  ]

  /** The values of the adaptation-tier select. */
  const AdaptationGradeOptions: seq<string> := ["Grado 1", "Grado 2", "Grado 3"]

  /** The field a control of that name shows. */
  function TextValue(form: UserInputs, f: TextField): string {
    match f
    case Institution => form.institution
    case Teacher => form.teacher
    case Date => form.date
    case AcademicYear => form.academicYear
    case Subject => form.subject
    case Grade => form.grade
    case UnitTitle => form.unitTitle
    case Topic => form.topic
    case EducationalNeed => form.educationalNeed
    case AdaptationGrade => form.adaptationGrade
  }

  /** `{ ...prev, [name]: value }` for a string field. */
  function SetText(form: UserInputs, f: TextField, v: string): UserInputs {
    match f
    case Institution => form.(institution := v)
    case Teacher => form.(teacher := v)
    case Date => form.(date := v)
    case AcademicYear => form.(academicYear := v)
    case Subject => form.(subject := v)
    case Grade => form.(grade := v)
    case UnitTitle => form.(unitTitle := v)
    case Topic => form.(topic := v)
    case EducationalNeed => form.(educationalNeed := v)
    case AdaptationGrade => form.(adaptationGrade := v)
  }

  /** `handleChange`: a checkbox stores its `checked` flag, any other control
      its string `value`, and nothing else changes. */
  function HandleChange(form: UserInputs, e: ChangeEvent): (r: UserInputs)
    ensures e.CheckboxChange? ==>
              && r.needsAdaptation == e.checked
              && forall f :: TextValue(r, f) == TextValue(form, f)
    ensures e.ValueChange? ==>
              && r.needsAdaptation == form.needsAdaptation
              && TextValue(r, e.name) == e.value
              && forall f :: f != e.name ==> TextValue(r, f) == TextValue(form, f)
  {
    match e
    case CheckboxChange(checked) => form.(needsAdaptation := checked)
    case ValueChange(name, value) => SetText(form, name, value)
  }

  /** Two forms that show the same values are the same form. */
  lemma SameValuesSameForm(a: UserInputs, b: UserInputs)
    requires a.needsAdaptation == b.needsAdaptation
    requires forall f :: TextValue(a, f) == TextValue(b, f)
    ensures a == b
  {
    assert TextValue(a, Institution) == TextValue(b, Institution);
    assert TextValue(a, Teacher) == TextValue(b, Teacher);
    assert TextValue(a, Date) == TextValue(b, Date);
    assert TextValue(a, AcademicYear) == TextValue(b, AcademicYear);
    assert TextValue(a, Subject) == TextValue(b, Subject);
    assert TextValue(a, Grade) == TextValue(b, Grade);
    assert TextValue(a, UnitTitle) == TextValue(b, UnitTitle);
    assert TextValue(a, Topic) == TextValue(b, Topic);
    assert TextValue(a, EducationalNeed) == TextValue(b, EducationalNeed);
    assert TextValue(a, AdaptationGrade) == TextValue(b, AdaptationGrade);
  }

  /** Typing a value and then typing the old value back restores the form. */
  lemma ChangeThenRevert(form: UserInputs, f: TextField, v: string)
    ensures HandleChange(HandleChange(form, ValueChange(f, v)), ValueChange(f, TextValue(form, f))) == form
  {
    var back := HandleChange(HandleChange(form, ValueChange(f, v)), ValueChange(f, TextValue(form, f)));
    forall g ensures TextValue(back, g) == TextValue(form, g) {
    }
    SameValuesSameForm(back, form);
  }

  /** Unticking the adaptation box only hides the two selects: their values
      survive, and ticking it again restores the form exactly. */
  lemma UntickKeepsAdaptationChoice(form: UserInputs)
    requires form.needsAdaptation
    ensures HandleChange(form, CheckboxChange(false)).educationalNeed == form.educationalNeed
    ensures HandleChange(form, CheckboxChange(false)).adaptationGrade == form.adaptationGrade
    ensures HandleChange(HandleChange(form, CheckboxChange(false)), CheckboxChange(true)) == form
  {
    var back := HandleChange(HandleChange(form, CheckboxChange(false)), CheckboxChange(true));
    SameValuesSameForm(back, form);
  }

  /** Both selects hold one of their options. */
  predicate SelectsInRange(form: UserInputs) {
    form.educationalNeed in EducationalNeedOptions && form.adaptationGrade in AdaptationGradeOptions
  }

  /** The initial form state; `today` is the locale-formatted current date. */
  function InitialForm(today: string): UserInputs {
    UserInputs(
      institution := "Unidad Educativa \"Sagrados Corazones de Rumipamba\"",
      teacher := "Lic. Ana Sánchez",
      date := today,
      academicYear := "2024-2025",
      subject := "Matemáticas",
      grade := "Cuarto EGB",
      unitTitle := "Patrones y Sucesiones",
      topic := "Sucesiones numéricas crecientes a partir de patrones de adición.",
      needsAdaptation := false,
      educationalNeed := "Dificultades de Aprendizaje (DEA)",
      adaptationGrade := "Grado 2")
  }

  /** The event could come from a control on screen: the selects exist only
      while the box is ticked, and a select only yields one of its options. */
  predicate Enabled(form: UserInputs, e: ChangeEvent) {
    match e
    case CheckboxChange(_) => true
    case ValueChange(EducationalNeed, v) => form.needsAdaptation && v in EducationalNeedOptions
    case ValueChange(AdaptationGrade, v) => form.needsAdaptation && v in AdaptationGradeOptions
    case ValueChange(_, _) => true
  }

  /** The form after a sequence of change events. */
  function Replay(form: UserInputs, events: seq<ChangeEvent>): UserInputs
    decreases |events|
  {
    if |events| == 0 then form else Replay(HandleChange(form, events[0]), events[1..])
  }

  /** Each event is enabled in the form it reaches. */
  predicate EnabledTrace(form: UserInputs, events: seq<ChangeEvent>)
    decreases |events|
  {
    |events| == 0 || (Enabled(form, events[0]) && EnabledTrace(HandleChange(form, events[0]), events[1..]))
  }

  /** An enabled event keeps both selects on one of their options. */
  lemma HandleChangeKeepsSelectsInRange(form: UserInputs, e: ChangeEvent)
    requires SelectsInRange(form) && Enabled(form, e)
    ensures SelectsInRange(HandleChange(form, e))
  {
    if e.ValueChange? {
      assert TextValue(HandleChange(form, e), EducationalNeed) == HandleChange(form, e).educationalNeed;
      assert TextValue(HandleChange(form, e), AdaptationGrade) == HandleChange(form, e).adaptationGrade;
    }
  }

  /** Starting from the initial form, whatever the user does, the need and
      the tier are always among the offered options. */
  lemma {:induction false} ReplayKeepsSelectsInRange(form: UserInputs, events: seq<ChangeEvent>)
    requires SelectsInRange(form) && EnabledTrace(form, events)
    ensures SelectsInRange(Replay(form, events))
    decreases |events|
  {
    if |events| > 0 {
      HandleChangeKeepsSelectsInRange(form, events[0]);
      ReplayKeepsSelectsInRange(HandleChange(form, events[0]), events[1..]);
    }
  }

  /** The initial form starts unticked with both selects in range, and it is
      ready to submit exactly when the date is not empty. */
  lemma InitialFormState(today: string)
    ensures !InitialForm(today).needsAdaptation && SelectsInRange(InitialForm(today))
    ensures InitialForm(today).educationalNeed == EducationalNeedOptions[0]
    ensures InitialForm(today).adaptationGrade == AdaptationGradeOptions[1]
    ensures RequiredFilled(InitialForm(today)) <==> today != ""
  {
    if today == "" {
      assert TextValue(InitialForm(today), Date) == "";
    }
  }

  /** The eight text inputs carry the `required` attribute; the selects do not. */
  predicate IsRequired(f: TextField) {
    f != EducationalNeed && f != AdaptationGrade
  }

  /** Every required input holds a non-empty value. */
  predicate RequiredFilled(form: UserInputs) {
    forall f :: IsRequired(f) ==> TextValue(form, f) != ""
  }

  /** `handleSubmit` behind a button that is disabled while loading and an
      input check that refuses empty required fields: the current form state
      reaches `onSubmit` unchanged, or nothing is submitted. */
  function Submit(form: UserInputs, isLoading: bool): (r: Option<UserInputs>)
    ensures r.Some? <==> !isLoading && RequiredFilled(form)
    ensures r.Some? ==> r.value == form
  {
    assert TextValue(form, Institution) == form.institution && TextValue(form, Teacher) == form.teacher;
    assert TextValue(form, Date) == form.date && TextValue(form, AcademicYear) == form.academicYear;
    assert TextValue(form, Subject) == form.subject && TextValue(form, Grade) == form.grade;
    assert TextValue(form, UnitTitle) == form.unitTitle && TextValue(form, Topic) == form.topic;
    if isLoading
       || form.institution == "" || form.teacher == "" || form.date == ""
       || form.academicYear == "" || form.subject == "" || form.grade == ""
       || form.unitTitle == "" || form.topic == ""
    then None
    else Some(form)
  }
}

=== FILE: text.dfy ===
/** The few JavaScript string operations the application relies on:
    substring containment, `Array.prototype.join`, the decimal rendering of
    an integer `number`, and `String.prototype.replace` with a one-character
    string pattern (which replaces the FIRST occurrence only). */
module Text {

  /** `needle` occurs somewhere in `hay` as a contiguous substring. */
  predicate Contains(hay: string, needle: string) {
    exists k :: 0 <= k <= |hay| && needle <= hay[k..]
  }

  /** A contained string is never longer than its container. */
  lemma ContainsLength(hay: string, needle: string)
    requires Contains(hay, needle)
    ensures |needle| <= |hay|
  {
    var k :| 0 <= k <= |hay| && needle <= hay[k..];
  }

  /** Containment is transitive. */
  lemma ContainsTransitive(a: string, b: string, c: string)
    requires Contains(a, b) && Contains(b, c)
    ensures Contains(a, c)
  {
    var k :| 0 <= k <= |a| && b <= a[k..];
    var j :| 0 <= j <= |b| && c <= b[j..];
    assert a[k + j..][..|c|] == c;
  }

  /** The value of a template literal: its literal pieces and substituted
      values, concatenated in order. */
  function Concat(parts: seq<string>): string {
    if |parts| == 0 then "" else parts[0] + Concat(parts[1..])
  }

  /** Each piece of a template occurs verbatim in its value. */
  lemma {:induction false} ConcatContains(parts: seq<string>, i: nat)
    requires i < |parts|
    ensures Contains(Concat(parts), parts[i])
  {
    var whole := Concat(parts);
    if i == 0 {
      assert whole[0..] == parts[0] + Concat(parts[1..]);
    } else {
      ConcatContains(parts[1..], i - 1);
      var rest := Concat(parts[1..]);
      var k :| 0 <= k <= |rest| && parts[i] <= rest[k..];
      assert whole[|parts[0]| + k..] == rest[k..];
    }
  }

  // ---------------------------------------------------------------------
  // First-occurrence search and String.prototype.replace(char, char)
  // ---------------------------------------------------------------------

  /** The position of the first `c` in `s`. */
  function IndexOf(s: string, c: char): (k: nat)
    requires c in s
    ensures k < |s| && s[k] == c
    ensures forall i :: 0 <= i < k ==> s[i] != c
  {
    if s[0] == c then 0 else 1 + IndexOf(s[1..], c)
  }

  /** JavaScript `s.replace(from, to)` for one-character strings `from` and
      `to` (with no `$` in `to`): only the first `from` is replaced. */
  function ReplaceFirst(s: string, from: char, to: char): (r: string)
    ensures |r| == |s|
    ensures from !in s ==> r == s
    ensures from in s ==>
              var k := IndexOf(s, from);
              r[k] == to && forall i :: 0 <= i < |s| && i != k ==> r[i] == s[i]
  {
    if s == [] then []
    else if s[0] == from then [to] + s[1..]
    else [s[0]] + ReplaceFirst(s[1..], from, to)
  }

  /** Exactly one `from` is traded for one `to`; no other character of the
      string is gained or lost. */
  lemma {:induction false} ReplaceFirstTradesOne(s: string, from: char, to: char)
    requires from in s
    ensures multiset(ReplaceFirst(s, from, to)) == multiset(s) - multiset{from} + multiset{to}
  {
    assert s == [s[0]] + s[1..];
    if s[0] != from {
      ReplaceFirstTradesOne(s[1..], from, to);
    }
  }

  /** With `from != to`, the result holds exactly one `from` fewer: every
      later occurrence survives. */
  lemma ReplaceFirstCount(s: string, from: char, to: char)
    requires from in s && from != to
    ensures multiset(ReplaceFirst(s, from, to))[from] == multiset(s)[from] - 1
  {
    ReplaceFirstTradesOne(s, from, to);
  }

  // ---------------------------------------------------------------------
  // Array.prototype.join
  // ---------------------------------------------------------------------

  /** JavaScript `xs.join(sep)` over an array of strings. */
  function Join(xs: seq<string>, sep: string): string
  {
    if |xs| == 0 then ""
    else if |xs| == 1 then xs[0]
    else xs[0] + sep + Join(xs[1..], sep)
  }

  /** Splitting the list at any inner position splits the joined string
      there, with exactly one separator between the halves: together with
      `Join([x], sep) == x` this fixes the order of the elements and the
      place of every separator. */
  lemma {:induction false} JoinSplit(xs: seq<string>, sep: string, i: nat)
    requires 0 < i < |xs|
    ensures Join(xs, sep) == Join(xs[..i], sep) + sep + Join(xs[i..], sep)
  {
    if i > 1 {
      JoinSplit(xs[1..], sep, i - 1);
      assert xs[1..][..i - 1] == xs[..i][1..];
      assert xs[1..][i - 1..] == xs[i..];
    } else {
      assert xs[..1] == [xs[0]];
    }
  }

  /** Every element occurs verbatim in the joined string. */
  lemma {:induction false} JoinContains(xs: seq<string>, sep: string, i: nat)
    requires i < |xs|
    ensures Contains(Join(xs, sep), xs[i])
  {
    var whole := Join(xs, sep);
    if i == 0 {
      assert xs[0] <= whole[0..];
    } else {
      JoinContains(xs[1..], sep, i - 1);
      var rest := Join(xs[1..], sep);
      var k :| 0 <= k <= |rest| && xs[i] <= rest[k..];
      assert whole == xs[0] + sep + rest;
      assert whole[|xs[0]| + |sep| + k..] == rest[k..];
    }
  }

  /** Sum of the lengths of the strings of `xs`. */
  function TotalLength(xs: seq<string>): nat {
    if |xs| == 0 then 0 else |xs[0]| + TotalLength(xs[1..])
  }

  /** The joined string is every element plus one separator between each
      adjacent pair. */
  lemma {:induction false} JoinLength(xs: seq<string>, sep: string)
    requires |xs| >= 1
    ensures |Join(xs, sep)| == TotalLength(xs) + (|xs| - 1) * |sep|
  {
    if |xs| > 1 {
      JoinLength(xs[1..], sep);
    }
  }

  // ---------------------------------------------------------------------
  // Decimal rendering of integers (String(n) for an integral number)
  // ---------------------------------------------------------------------

  predicate IsDigit(c: char) {
    '0' <= c <= '9'
  }

  function DigitChar(d: nat): (c: char)
    requires d < 10
    ensures IsDigit(c)
  {
    (('0' as int) + d) as char
  }

  function DigitValue(c: char): (d: nat)
    requires IsDigit(c)
    ensures d < 10
  {
    (c as int) - ('0' as int)
  }

  /** Decimal digits of `n`, most significant first, with no leading zero. */
  function NatToString(n: nat): (r: string)
    ensures |r| >= 1
    ensures forall i :: 0 <= i < |r| ==> IsDigit(r[i])
    ensures r[0] == '0' ==> n == 0 && r == "0"
    decreases n
  {
    if n < 10 then [DigitChar(n)]
    else NatToString(n / 10) + [DigitChar(n % 10)]
  }

  /** Reads a string of decimal digits back as a number. */
  function ParseNat(s: string): nat
    requires forall i :: 0 <= i < |s| ==> IsDigit(s[i])
  {
    if |s| == 0 then 0
    else 10 * ParseNat(s[..|s| - 1]) + DigitValue(s[|s| - 1])
  }

  /** Reading back the rendering gives the number. */
  lemma {:induction false} ParseNatToString(n: nat)
    ensures ParseNat(NatToString(n)) == n
    decreases n
  {
    var s := NatToString(n);
    if n >= 10 {
      assert s[..|s| - 1] == NatToString(n / 10);
      ParseNatToString(n / 10);
    }
  }

  /** Distinct numbers render to distinct strings. */
  lemma NatToStringInjective(a: nat, b: nat)
    requires a != b
    ensures NatToString(a) != NatToString(b)
  {
    ParseNatToString(a);
    ParseNatToString(b);
  }

  /** `String(i)` for an integral number: a minus sign before the digits of
      a negative value, and no leading zero. */
  function IntToString(i: int): (r: string)
    ensures |r| >= 1
    ensures r[0] == '-' <==> i < 0
    ensures forall k :: (if i < 0 then 1 else 0) <= k < |r| ==> IsDigit(r[k])
    ensures var s := if i < 0 then 1 else 0; |r| > s && (r[s] == '0' ==> i == 0 && r == "0")
  {
    if i < 0 then
      assert ("-" + NatToString(-i))[1..] == NatToString(-i);
      "-" + NatToString(-i)
    else NatToString(i)
  }

  /** The digits of `String(i)` read back as the magnitude of `i`. */
  lemma IntToStringReadsBack(i: int)
    ensures i >= 0 ==> ParseNat(IntToString(i)) == i
    ensures i < 0 ==> ParseNat(IntToString(i)[1..]) == -i
  {
    if i >= 0 {
      ParseNatToString(i);
    } else {
      assert IntToString(i)[1..] == NatToString(-i);
      ParseNatToString(-i);
    }
  }
}

=== FILE: types.dfy ===
/** The records of types.ts. Every field that the source declares as
    `string` is a `string`, every `string[]` a `seq<string>`, and the one
    optional field, `curricularAdaptation`, an `Option`. Numbers that the
    source treats as integers (`unitNumber`, `week`) are `int`. */
module Types {
  import opened Wrappers

  /** What the user submits from the planner form. */
  datatype UserInputs = UserInputs(
    institution: string,
    teacher: string,
    date: string,
    academicYear: string,
    subject: string,
    grade: string,
    unitTitle: string,
    topic: string,
    needsAdaptation: bool,
    educationalNeed: string,
    adaptationGrade: string)

  /** A curriculum skill ("destreza") with its official code. */
  datatype Skill = Skill(code: string, description: string)

  /** The three learning phases of Universal Design for Learning. */
  datatype LearningActivities = LearningActivities(
    representation: seq<string>,
    expressionAndAction: seq<string>,
    implication: seq<string>)

  datatype Evaluation = Evaluation(indicator: string, technique: string, instrument: string)

  datatype WeeklyPlan = WeeklyPlan(
    week: int,
    skill: Skill,
    learningActivities: LearningActivities,
    resources: seq<string>,
    evaluation: Evaluation)

  datatype CurricularAdaptation = CurricularAdaptation(
    educationalNeed: string,
    adaptationGrade: string,
    skillAdaptation: string,
    methodologyAdaptation: seq<string>,
    resourceAdaptation: seq<string>,
    evaluationAdaptation: string)

  /** The lesson-plan document. `curricularAdaptation` is its only optional
      field; `None` stands for both `null` and a missing property. */
  datatype LessonPlanData = LessonPlanData(
    institution: string,
    teacher: string,
    subject: string,
    grade: string,
    date: string,
    academicYear: string,
    unitNumber: int,
    unitTitle: string,
    unitObjective: string,
    evaluationCriteria: string,
    curricularInsertions: seq<string>,
    weeklyPlans: seq<WeeklyPlan>,
    curricularAdaptation: Option<CurricularAdaptation>)
}

=== FILE: wrappers.dfy ===
/** The two sum types used across the model: `Option` for the source's
    nullable / optional values and `Result` for a call that either returns
    a value or throws. */
module Wrappers {

  /** A value that may be absent (`null` or `undefined` in the source). */
  datatype Option<+T> = None | Some(value: T)

  /** The outcome of an operation that either returns or throws. */
  datatype Result<+R, +E> = Success(value: R) | Failure(error: E)
}
